=== FILE: README.md ===
# N-in-a-row engine (3x3 to 6x6): a verified model

This project models the engine core of an N-in-a-row game (tic-tac-toe
generalised to boards of size 3 to 6). The engine exists twice, in
`script.cpp` and `script.py`, and both run the same algorithm. The one
model here covers both, and it is parameterised where they differ:

- The C++ `checkWinner` reports `'D'` / `'\0'` where Python reports
  `'DRAW'` / `None`. The model returns an `Outcome` datatype with two
  encodings, `CppCode` and `PyCode`.
- The two per-size search-depth tables differ: `CppMaxDepth` and
  `PyMaxDepth`.

The modules follow the program's parts:

- `Geometry` (geometry.dfy): the cell numbering (`r * n + c`) and the
  win-line table. The table holds all rows, then all columns, then the main
  diagonal and the anti-diagonal.
- `Grid` (grid.dfy): the `Board` class and the winner classification.
  - The class has a fixed size and a mutable `cells` array that `Set`
    overwrites in place.
  - The win lines are built once by `GenerateWinLines`, with the same
    push-back loops as the source.
  - The other operations are `Get`, `Set`, `IsEmpty`, `IsFull`,
    `GetEmptyCells`, `CheckWinner` and `Copy`.
  - `NewBoard` is the checked construction: a size outside 3..6 yields
    `Err` with the source's message. This models the C++ `invalid_argument`
    and the Python `ValueError`.
- `Evaluation` (evaluation.dfy): the static line-score evaluator as pure
  functions. The engine scores each line by its mark counts with an
  asymmetric table: 50000 / 1000 / 10 for itself, 55000 / 2000 / 20
  against the opponent.
- `Search` (search.dfy): the search as functions.
  - `AlphaBeta` / `AlphaBetaLoop` follow the source's minimax step by step:
    the winner test, then the depth test, then the ascending scan of the
    empty cells with the `beta <= alpha` cut-off.
  - `Value` / `Best` are plain unpruned minimax, the reference.
  - `Pick` / `BestMove` describe getBestMove's strict-improvement scan.
  - The module also holds the depth tables.
- `Engine` (engine.dfy): the `AIEngine` class.
  - Its methods work in place on the shared board: each placement is
    undone before the next one.
  - Each method is proved equal to the matching function of `Evaluation`
    (`CountMarks`, `ScoreLine`, `EvaluateBoard`) or of `Search` (`Minimax`,
    `MaxOver`, `MinOver`, `GetBestMove`).
  - Every method ends with the board exactly as it found it.

The search depth is `Depth = Plies(k) | Unbounded`. `Unbounded` is
Python's `float('inf')` for 3x3, where `depth - 1` stays infinite. The
recursion therefore terminates on the number of empty cells, which drops by
one with every placement (`PlaceAndUndo`). It does not rely on the depth.

The C++ window sentinels `numeric_limits<int>::min()/max()` are the
integers `NEG_INF` / `POS_INF`. Python's `-math.inf` / `math.inf` play the
same part. On a board of the two players' symbols no score comes near
them: every score lies in [-1000000, 1000000] (`ValueBounds`). On other
boards the search can return a sentinel itself.

Main results:

- `AlphaBetaClamp`: the fail-soft alpha-beta theorem. Inside any window
  (alpha, beta), the pruned score and the unpruned minimax value agree once
  both are clamped to the window.
- `AlphaBetaIsMinimax`: on a board of the two players' symbols, with the
  full window, as getBestMove calls it, pruning changes nothing.
- `BestMoveSpec`: on a board of the two players' symbols, the chosen move
  is -1 exactly when the board is full.
  Otherwise it is an empty cell of greatest minimax value, and the
  lowest-numbered such cell.
- `ThreeByThreeTablesAgree`: on a 3x3 board of the two players' symbols,
  the C++ depth 100 and Python's unbounded depth choose the same move.

The engine source inlines four steps that the model gives their own
methods, so that each proof stays small:

- the per-line counting (`CountMarks`);
- the per-line score (`ScoreLine`);
- the maximizing scan (`MaxOver`);
- the minimizing scan (`MinOver`).

Each of these methods runs the source's statements in the source's order.

On the reward for the engine's own marks: it is sometimes described as
strictly increasing with the mark count. The code does not do that, and the
model follows the code. On a 6x6 board both two and three marks score 10
(`RewardNotStrict`); the reward never decreases (`RewardMonotone`).

## Model

| member | source | states |
|---|---|---|
| Geometry.WinLinesShape | script.cpp:21-47 | There are exactly 2n+2 win lines, each of length n, every index in [0, n*n). Line j < n is row j (`r*n+c`), line n+j is column j, then the main diagonal (`i*n+i`) and the anti-diagonal (`i*n+(n-1-i)`). The same table is built in script.py:16-28. |
| Geometry.LineCoordinates | script.cpp:24-44 | Every element of row r has row coordinate r and runs through the columns in order; columns the other way round. The diagonals pair row k with column k and with column n-1-k. |
| Geometry.CellOnRowAndColumn | script.cpp:21-38 | Every cell of the board lies on its own row line and on its own column line. |
| Geometry.Coordinates | script.cpp:27-35 | The index r*n+c maps back to row r (quotient) and column c (remainder), so the numbering is one-to-one. |
| Grid.EmptyIndicesSpec | script.cpp:81-89 | The empty-cell list is strictly ascending and holds exactly the indices whose cell is EMPTY. It is empty exactly when no cell is EMPTY (also script.py:42-43). |
| Grid.PlaceAndUndo | script.cpp:241-243 | Placing a symbol on an empty cell and then writing EMPTY back restores the board. While the symbol is there, the empty count is one less and exactly that cell has left the empty list. This is the termination measure of the search. |
| Grid.CountEmptyAtMostSize | script.cpp:81-89 | There are never more empty cells than cells. |
| Grid.WinnerSpec | script.cpp:92-108 | The winner is Win(x) exactly when some line is complete: the first such line, with x its non-EMPTY symbol. It is Draw exactly when no line is complete and no cell is EMPTY. It is Undecided exactly when no line is complete and some cell is EMPTY. So a completed line outranks a full board (also script.py:45-52). |
| Grid.CodesAreFaithful | script.cpp:91-107 | The C++ encoding (symbol / 'D' / '\0') and the Python encoding (symbol / 'DRAW' / None) of the outcome are one-to-one when no player symbol is 'D' or '\0' (script.py:45-52). |
| Grid.NewBoard | script.cpp:50-56 | Construction fails exactly for a size outside 3..6. Otherwise the result is a fresh, well-formed board of that size with every cell EMPTY (also script.py:9-14). |
| Grid.Board.constructor | script.cpp:50-56 | A board of an accepted size n has n*n cells, all EMPTY, and the win-line table of size n. |
| Grid.Board.GenerateWinLines | script.cpp:21-47 | The push-back loops produce exactly the table WinLines(n): rows, columns, diagonal, anti-diagonal. |
| Grid.Board.Set | script.cpp:62-68 | Writes one cell and leaves every other cell as it was (get/set, also script.py:30-34). |
| Grid.Board.IsEmpty | script.cpp:70-72 | A cell is empty exactly when its index is in the empty-cell list (script.py:36-37). |
| Grid.Board.IsFull | script.cpp:74-79 | Full exactly when no cell is EMPTY, that is when the empty-cell list is empty (script.py:39-40). |
| Grid.Board.GetEmptyCells | script.cpp:81-89 | Returns exactly the EMPTY indices, strictly ascending. |
| Grid.Board.CheckWinner | script.cpp:92-108 | The line scan with its early exits computes the winner classified by WinnerSpec. |
| Grid.Board.Copy | script.cpp:110-114 | A fresh board of the same size and line table, with equal cells and a cell array not shared with the original (script.py:54-57). |
| Evaluation.Count | script.cpp:204-208 | A line's count of a symbol is at most the line's length, and equals it exactly when every cell of the line holds that symbol. |
| Evaluation.Penalty | script.cpp:219-224 | The opponent's penalty is never below the engine's reward for the same count, and strictly above it on every scoring partial line: 55000 > 50000, 2000 > 1000, 20 > 10. |
| Evaluation.LineScore | script.cpp:210-224 | A line with both players' marks scores 0, and so does a line with none. A line with only the engine's marks scores the reward for their count; a line with only the opponent's scores minus the penalty (also script.py:116-138). |
| Evaluation.EvaluatePrefixBounds | script.cpp:201-225 | Summed over k incomplete lines, the score stays within [-55000k, 50000k]. |
| Evaluation.EvaluateBounds | script.cpp:197-227 | On a board where no line is complete, the static score lies strictly between LOSS_SCORE and WIN_SCORE (script.cpp:186-187, script.py:100-101). |
| Evaluation.DeadBoardScoresZero | script.cpp:210 | A board whose every line holds both players' marks scores 0. |
| Evaluation.RewardMonotone | script.cpp:212-217 | For an accepted size, the reward never decreases as the engine's count on an open line grows. |
| Evaluation.RewardNotStrict | script.cpp:212-217 | The reward is not strictly increasing: on 6x6, two and three marks both score 10. |
| Search.EncodedTestsAgree | script.cpp:230-233 | With valid symbols, comparing the encoded winner with aiSymbol, humanSymbol or 'D' (Python: 'DRAW') is the same as testing the outcome Win(ai), Win(human), Draw (script.py:143-149). |
| Search.TerminalScores | script.cpp:229-235 | The winner is tested before the depth. A decided board scores exactly WIN_SCORE, LOSS_SCORE or 0 at every depth and in every window. An undecided board at depth 0 scores its static evaluation, strictly between them (script.py:143-152). |
| Search.AlphaBetaClamp | script.cpp:229-262 | For every window NEG_INF <= alpha < beta <= POS_INF, the pruned search and plain minimax agree after clamping to [alpha, beta]. A minimax value inside the window is returned exactly; one outside yields a score on the same side. |
| Search.LoopMaxClamp | script.cpp:239-249 | The maximizing scan, from any point with alpha = max(alpha0, best) < beta, ends in the clamp of max(best, the unpruned best over the remaining moves), even when it breaks at beta <= alpha. |
| Search.LoopMinClamp | script.cpp:250-261 | The minimizing scan, symmetric: the clamp of min(best, the unpruned minimum over the remaining moves). |
| Search.ValueBounds | script.cpp:229-262 | On a board holding only the two players' symbols, every minimax value lies in [LOSS_SCORE, WIN_SCORE]. |
| Search.BestBounds | script.cpp:239-261 | On a board holding only the two players' symbols, the best child value over a non-empty move list lies in [LOSS_SCORE, WIN_SCORE]. |
| Search.AlphaBetaIsMinimax | script.cpp:268-270 | On a board holding only the two players' symbols, searched with the full window (int min, int max), the pruned score equals the unpruned minimax value and lies in [LOSS_SCORE, WIN_SCORE] (script.py:183-184). |
| Search.DeepEnough | script.cpp:291-293 | On a board holding only the two players' symbols, a depth of at least the number of empty cells never cuts the search short: the value equals the unbounded search's. |
| Search.CppMaxDepth | script.cpp:291-299 | getMaxDepth always returns a ply limit of at least 4. On 3x3 the limit covers every one of the 9 cells, so the whole game is searched; on any other size it is at most 6. |
| Search.PyMaxDepth | script.py:197-198 | The Python depth map is unbounded (None) exactly for size 3. Every other size gets a limit between 3 and 5 plies, 4 for a size the map does not list. |
| Search.DepthTables | script.cpp:291-299 | The C++ table gives 100, 6, 5, 4 for sizes 3..6. The Python table (script.py:197-198) gives unbounded, 5, 4, 3, one ply less on each larger board. Both search shallower as the board grows. |
| Search.ThreeByThreeTablesAgree | script.cpp:293 | On 3x3 the C++ depth 100 and Python's infinite depth (script.py:197) pick the same move on every board holding only the two players' symbols. |
| Search.PickSpec | script.cpp:273-276 | The strict-improvement scan keeps its initial choice when nothing beats the initial score. Otherwise it returns the first move that strictly beats every earlier one and is not beaten by any later one. |
| Search.NoMoveIffFull | script.cpp:264-279 | When every empty cell scores above the initial best, the scan returns -1 exactly on a full board, and otherwise an empty cell. |
| Search.FirstBestEmptyCell | script.cpp:264-279 | A returned move is an empty cell of greatest score, and every lower-numbered empty cell scores strictly less. |
| Search.FirstBestPosition | script.cpp:266-276 | The first-best position of the ascending empty list, read on the board, is a cell of greatest score that beats every lower-numbered empty cell. |
| Search.BestMoveSpec | script.cpp:264-279 | On a board holding only the two players' symbols, getBestMove returns -1 exactly when there is no empty cell. Otherwise it returns an empty cell whose unpruned minimax value is the greatest over all empty cells, and the lowest-numbered such cell (script.py:179-189). |
| Engine.AIEngine.constructor | script.cpp:194-195 | The engine keeps its symbol, the opponent's and its depth (script.py:103-106). |
| Engine.AIEngine.CountMarks | script.cpp:201-208 | Counts the engine's and the opponent's marks on a line, with the source's if / else-if. |
| Engine.AIEngine.ScoreLine | script.cpp:210-224 | One line's contribution equals LineValue: 0 for a mixed line, otherwise reward minus penalty. |
| Engine.AIEngine.EvaluateBoard | script.cpp:197-227 | The loop over the win lines computes the static evaluation Evaluate of the board (script.py:108-140). |
| Engine.AIEngine.Minimax | script.cpp:229-262 | Returns the score AlphaBeta defines for the board, depth, window and side, and leaves every cell as it was on entry (script.py:142-177). |
| Engine.AIEngine.MaxOver | script.cpp:239-249 | The maximizing loop with set / recurse / undo and the beta <= alpha break returns AlphaBetaLoop's value and restores the board, including on an early break. |
| Engine.AIEngine.MinOver | script.cpp:250-261 | The minimizing loop, symmetric, with the same restoration. |
| Engine.AIEngine.GetBestMove | script.cpp:264-279 | Returns BestMove for the board at the engine's depth and leaves the board unchanged. On a board of players' symbols it returns -1 exactly when no cell is empty; any other move is an empty cell (script.py:179-189). |

## Left out

- Board display: `Board::display` (script.cpp:116-133) and `Board.display` (script.py:59-70) only format console output.
- Human input: `HumanPlayer::getMove` (script.cpp:154-180) and `HumanPlayer.get_move` (script.py:83-96) are stdin loops. Their range check appears here as the precondition of `Set`. Their emptiness check appears as the `AreMoves` precondition of `MaxOver` and `MinOver`: every cell the engine places a symbol on is empty.
- The game: `Game::play`, `Game.play` and `main` (script.cpp:308-401, script.py:206-272) are the interactive turn loop, printing and size prompt.
- The first player is chosen at random (script.cpp:326-328, script.py:218). That is a library call with no effect on the engine.
- `AIPlayer`: its construction and `getMove` only pass the depth table's value to `AIEngine` and print a line. The depth tables are modelled (`CppMaxDepth`, `PyMaxDepth`).
- Cells are modelled as `char`, with `EMPTY = ' '` as in both sources. They are not a separate empty/symbol datatype.
- The engine methods require `ValidConfig`: two distinct symbols, neither EMPTY nor 'D' nor '\0'. The sources never check this; the game always passes 'X' and 'O'.
  - With EMPTY as a symbol, placing it would be a pass: the board would not change. The number of empty cells, the measure that makes the model's search terminate, would then not fall on every ply, and the game played would be meaningless.
  - With 'D' or '\0', the C++ character tests would confuse a win with a draw or with "no winner".
- Python's float infinities for the window and the running best are modelled by the C++ int limits. No comparison differs on any board: in both languages the sentinels are the extreme values, below or above every score the search computes. On a board of the two players' symbols every score also lies in [-1000000, 1000000] (`ValueBounds`).
- C++ `int` overflow is not modelled: integers are unbounded. On a board of the two players' symbols, minimax evaluates only boards with no complete line, since a decided board returns first. On those, `EvaluatePrefixBounds` proves every partial sum over at most 14 lines (6x6) lies within 14 * 55000 in magnitude, and `ValueBounds` keeps every search value on a board of players' symbols within 1000000. A board holding a third symbol can reach the evaluation with a complete line of that symbol, which is not terminal. For an arbitrary board each line scores at most 1000000 in magnitude, so a sum stays within 14 * 1000000; this bound is by inspection, not proved. Both are far inside 32 bits.
- Grid.Board.Get: it has no contract beyond returning the cell. Its uses are covered by the contracts of the callers.
- Engine.AIEngine.Minimax: the winner tests compare outcomes (`Win(ai)`, `Win(human)`, `Draw`), as script.py:143-149 does. The C++ code compares the encoded character with 'D' (script.cpp:233), which also fires on a complete line of 'D' cells. On such a board (for example "DDDX     " on 3x3 with 'X' and 'O') the model, like the Python code, does not treat the board as terminal: it evaluates it at depth 0 and searches on at a greater depth, whereas the C++ search returns 0. The game never builds such a board: its cells hold only ' ', 'X' and 'O'. `Search.AlphaBeta` follows the same outcome tests; `EncodedTestsAgree` shows that the C++ character tests agree whenever the winning symbol is neither 'D' nor '\0'.
- Negative depths: the C++ `AIEngine` constructor (script.cpp:194) accepts any `int` depth, and a negative one never reaches 0, so the search then runs like `Unbounded`. `Depth` holds only non-negative ply counts and `Unbounded`; the game never passes a negative depth, since `getMaxDepth` returns at least 4 (`CppMaxDepth`).

=== FILE: engine.dfy ===
/** The engine object: its evaluation, its alpha-beta search, which places
    and removes symbols on the shared board in place, and its move choice.
    Each method is proved against the functions of module Evaluation (the
    static score) or module Search (the search and the move choice). */
module Engine {
  import opened Geometry
  import opened Grid
  import opened Evaluation
  import opened Search

  class AIEngine {
    const aiSymbol: char
    const humanSymbol: char
    const maxDepth: Depth

    constructor (aiSym: char, humanSym: char, depth: Depth)
      ensures aiSymbol == aiSym && humanSymbol == humanSym && maxDepth == depth
    {
      aiSymbol := aiSym;
      humanSymbol := humanSym;
      maxDepth := depth;
    }

    /** The engine's view of a board: its size and the two symbols. */
    function Cfg(board: Board): Config
      requires 0 <= board.size
    {
      Config(board.size, aiSymbol, humanSymbol)
    }

    /** Counts the engine's and the opponent's marks on one line: a cell
        holding the engine's symbol counts for the engine, otherwise one
        holding the opponent's counts for the opponent. */
    method CountMarks(board: Board, line: seq<int>) returns (myCount: nat, oppCount: nat)
      requires aiSymbol != humanSymbol
      requires forall t :: 0 <= t < |line| ==> 0 <= line[t] < board.cells.Length
      ensures myCount == Count(board.cells[..], line, aiSymbol)
      ensures oppCount == Count(board.cells[..], line, humanSymbol)
    {
      ghost var s := board.cells[..];
      myCount, oppCount := 0, 0;
      for k := 0 to |line|
        invariant myCount == Count(s, line[..k], aiSymbol)
        invariant oppCount == Count(s, line[..k], humanSymbol)
      {
        CountStep(s, line, k, aiSymbol);
        CountStep(s, line, k, humanSymbol);
        var val := board.Get(line[k]);
        if val == aiSymbol {
          myCount := myCount + 1;
        } else if val == humanSymbol {
          oppCount := oppCount + 1;
        }
      }
      assert line[..|line|] == line;
    }

    /** One line's contribution: 0 for a line holding both players' marks,
        otherwise the engine's reward for its marks less the opponent's
        penalty for theirs. */
    method ScoreLine(board: Board, line: seq<int>) returns (lineScore: int)
      requires aiSymbol != humanSymbol && 0 <= board.size
      requires forall t :: 0 <= t < |line| ==> 0 <= line[t] < board.cells.Length
      ensures lineScore == LineValue(Cfg(board), board.cells[..], line)
    {
      var n := board.size;
      var myCount, oppCount := CountMarks(board, line);
      if myCount > 0 && oppCount > 0 {
        return 0;
      }
      lineScore := 0;

      if myCount > 0 {
        if myCount == n {
          lineScore := lineScore + WIN_SCORE;
        } else if myCount == n - 1 {
          lineScore := lineScore + 50000;
        } else if myCount == n - 2 {
          lineScore := lineScore + 1000;
        } else if myCount >= 2 {
          lineScore := lineScore + 10;
        }
      }

      if oppCount > 0 {
        if oppCount == n {
          lineScore := lineScore - WIN_SCORE;
        } else if oppCount == n - 1 {
          lineScore := lineScore - 55000;
        } else if oppCount == n - 2 {
          lineScore := lineScore - 2000;
        } else if oppCount >= 2 {
          lineScore := lineScore - 20;
        }
      }
    }

    /** Sums the line scores over the board's win lines; on a well-formed
        board that is the static evaluation. */
    method EvaluateBoard(board: Board) returns (score: int)
      requires 0 <= board.size && ValidConfig(Cfg(board)) && Fits(board.winLines, board.cells.Length)
      ensures score == EvaluatePrefix(Cfg(board), board.cells[..], board.winLines, |board.winLines|)
      ensures board.Valid() ==> score == Evaluate(Cfg(board), board.cells[..])
    {
      ghost var c := Cfg(board);
      ghost var s := board.cells[..];
      var lines := board.winLines;
      score := 0;
      for j := 0 to |lines|
        invariant score == EvaluatePrefix(c, s, lines, j)
      {
        var lineScore := ScoreLine(board, lines[j]);
        score := score + lineScore;
      }
    }

    /** Depth-limited minimax with alpha-beta pruning: the terminal checks,
        the depth cut-off, then the maximizing or minimizing scan of the
        empty cells. The board is unchanged on return and the score is the
        one AlphaBeta defines. */
    method Minimax(board: Board, depth: Depth, alpha: int, beta: int, isMax: bool) returns (r: int)
      requires board.Valid() && ValidConfig(Cfg(board))
      modifies board.cells
      ensures board.cells[..] == old(board.cells[..])
      ensures r == AlphaBeta(Cfg(board), old(board.cells[..]), depth, alpha, beta, isMax)
      decreases CountEmpty(board.cells[..]), 1
    {
      var winner := board.CheckWinner();
      if winner == Win(aiSymbol) {
        return WIN_SCORE;
      }
      if winner == Win(humanSymbol) {
        return LOSS_SCORE;
      }
      if winner == Draw {
        return 0;
      }

      if depth == Plies(0) {
        r := EvaluateBoard(board);
        return;
      }

      var emptyCells := board.GetEmptyCells();
      EmptyIndicesAreMoves(board.cells[..]);
      if isMax {
        r := MaxOver(board, emptyCells, depth, alpha, beta);
      } else {
        r := MinOver(board, emptyCells, depth, alpha, beta);
      }
    }

    /** The maximizing scan: places the engine's symbol on each cell in
        turn, searches with the opponent to move, takes the symbol back,
        raises alpha, and stops once beta <= alpha. */
    method MaxOver(board: Board, emptyCells: seq<int>, depth: Depth, alpha: int, beta: int) returns (maxEval: int)
      requires board.Valid() && ValidConfig(Cfg(board)) && depth != Plies(0)
      requires AreMoves(board.cells[..], emptyCells)
      modifies board.cells
      ensures board.cells[..] == old(board.cells[..])
      ensures maxEval == AlphaBetaLoop(Cfg(board), old(board.cells[..]), emptyCells, depth, alpha, beta, true, NEG_INF)
      decreases CountEmpty(board.cells[..]), 0
    {
      ghost var c := Cfg(board);
      ghost var s0 := board.cells[..];
      var a := alpha;
      maxEval := NEG_INF;
      for k := 0 to |emptyCells|
        invariant board.cells[..] == s0
        invariant AlphaBetaLoop(c, s0, emptyCells[k..], depth, a, beta, true, maxEval)
               == AlphaBetaLoop(c, s0, emptyCells, depth, alpha, beta, true, NEG_INF)
      {
        var i := emptyCells[k];
        assert emptyCells[k..][1..] == emptyCells[k + 1..];
        PlaceAndUndo(s0, i, aiSymbol);
        board.Set(i, aiSymbol);
        var evalScore := Minimax(board, Next(depth), a, beta, false);
        board.Set(i, EMPTY);
        maxEval := Max(maxEval, evalScore);
        a := Max(a, evalScore);
        if beta <= a {
          return;
        }
      }
    }

    /** The minimizing scan: the opponent's symbol, the engine to move next,
        beta lowered, the same cut-off. */
    method MinOver(board: Board, emptyCells: seq<int>, depth: Depth, alpha: int, beta: int) returns (minEval: int)
      requires board.Valid() && ValidConfig(Cfg(board)) && depth != Plies(0)
      requires AreMoves(board.cells[..], emptyCells)
      modifies board.cells
      ensures board.cells[..] == old(board.cells[..])
      ensures minEval == AlphaBetaLoop(Cfg(board), old(board.cells[..]), emptyCells, depth, alpha, beta, false, POS_INF)
      decreases CountEmpty(board.cells[..]), 0
    {
      ghost var c := Cfg(board);
      ghost var s0 := board.cells[..];
      var b := beta;
      minEval := POS_INF;
      for k := 0 to |emptyCells|
        invariant board.cells[..] == s0
        invariant AlphaBetaLoop(c, s0, emptyCells[k..], depth, alpha, b, false, minEval)
               == AlphaBetaLoop(c, s0, emptyCells, depth, alpha, beta, false, POS_INF)
      {
        var i := emptyCells[k];
        assert emptyCells[k..][1..] == emptyCells[k + 1..];
        PlaceAndUndo(s0, i, humanSymbol);
        board.Set(i, humanSymbol);
        var evalScore := Minimax(board, Next(depth), alpha, b, true);
        board.Set(i, EMPTY);
        minEval := Min(minEval, evalScore);
        b := Min(b, evalScore);
        if b <= alpha {
          return;
        }
      }
    }

    /** Tries every empty cell in ascending order, scores it with a
        full-window search at the engine's depth and keeps the first
        strictly best; -1 when there is no empty cell. The board is
        unchanged on return. */
    method GetBestMove(board: Board) returns (move: int)
      requires board.Valid() && ValidConfig(Cfg(board))
      modifies board.cells
      ensures board.cells[..] == old(board.cells[..])
      ensures move == BestMove(Cfg(board), old(board.cells[..]), maxDepth)
      ensures OnlyPlayers(Cfg(board), old(board.cells[..])) ==>
                (move == -1 <==> EMPTY !in old(board.cells[..]))
      ensures move != -1 ==> 0 <= move < board.cells.Length && old(board.cells[move]) == EMPTY
    {
      ghost var c := Cfg(board);
      ghost var s0 := board.cells[..];
      var bestScore, bestMove := NEG_INF, -1;
      var emptyCells := board.GetEmptyCells();
      EmptyIndicesAreMoves(s0);
      ghost var sc := Scores(c, s0, maxDepth, emptyCells);
      for k := 0 to |emptyCells|
        invariant board.cells[..] == s0
        invariant Pick(emptyCells[k..], sc[k..], bestScore, bestMove) == BestMove(c, s0, maxDepth)
        invariant bestMove == -1 || bestMove in emptyCells
      {
        var i := emptyCells[k];
        assert emptyCells[k..][1..] == emptyCells[k + 1..] && sc[k..][1..] == sc[k + 1..];
        PlaceAndUndo(s0, i, aiSymbol);
        board.Set(i, aiSymbol);
        var score := Minimax(board, maxDepth, NEG_INF, POS_INF, false);
        board.Set(i, EMPTY);
        if score > bestScore {
          bestScore := score;
          bestMove := i;
        }
      }
      move := bestMove;
      if OnlyPlayers(c, s0) {
        BestMoveSpec(c, s0, maxDepth);
      }
    }
  }
}

=== FILE: evaluation.dfy ===
/** The static evaluator: a heuristic score of a board from the engine's
    side, summed line by line over the win lines. */
module Evaluation {
  import opened Geometry
  import opened Grid

  const WIN_SCORE: int := 1000000
  const LOSS_SCORE: int := -1000000

  /** What an engine is fixed to: the board size, its own symbol and the
      opponent's. */
  datatype Config = Config(n: nat, ai: char, human: char)

  /** An accepted size and two distinct player symbols, neither of them
      EMPTY nor one of the C++ outcome markers 'D' and '\0'. */
  predicate ValidConfig(c: Config) {
    && ValidSize(c.n) && c.ai != c.human && c.ai != EMPTY && c.human != EMPTY
    && CppDistinct(c.ai) && CppDistinct(c.human)
  }

  /** Every cell is EMPTY or holds one of the two players' symbols. */
  predicate OnlyPlayers(c: Config, s: seq<char>) {
    forall k :: 0 <= k < |s| ==> s[k] == EMPTY || s[k] == c.ai || s[k] == c.human
  }

  /** How many cells of the line hold the symbol; the line is filled with
      it exactly when the count reaches the line's length. */
  function Count(s: seq<char>, line: seq<int>, symbol: char): (r: nat)
    requires forall k :: 0 <= k < |line| ==> 0 <= line[k] < |s|
    ensures r <= |line|
    ensures r == |line| <==> forall k :: 0 <= k < |line| ==> s[line[k]] == symbol
  {
    if line == [] then 0
    else
      var init := line[..|line| - 1];
      assert forall k :: 0 <= k < |init| ==> init[k] == line[k];
      Count(s, init, symbol) + (if s[line[|line| - 1]] == symbol then 1 else 0)
  }

  /** Counting one more cell of the line adds one exactly when that cell
      holds the symbol. */
  lemma CountStep(s: seq<char>, line: seq<int>, k: nat, symbol: char)
    requires forall t :: 0 <= t < |line| ==> 0 <= line[t] < |s|
    requires k < |line|
    ensures Count(s, line[..k + 1], symbol) == Count(s, line[..k], symbol) + (if s[line[k]] == symbol then 1 else 0)
  {
    assert line[..k + 1][..k] == line[..k];
  }

  /** The engine's reward for a line holding k of its own marks and none of
      the opponent's. */
  function Reward(k: nat, n: int): int {
    if k == n then WIN_SCORE
    else if k == n - 1 then 50000
    else if k == n - 2 then 1000
    else if k >= 2 then 10
    else 0
  }

  /** The penalty for a line holding k opponent marks and none of the
      engine's: never below the reward for the same count, and strictly
      above it on every scoring partial line, so that blocking the
      opponent's near-win outweighs completing the engine's own. */
  function Penalty(k: nat, n: int): (r: int)
    ensures r >= Reward(k, n)
    ensures k < n && Reward(k, n) > 0 ==> r > Reward(k, n)
  {
    if k == n then WIN_SCORE
    else if k == n - 1 then 55000
    else if k == n - 2 then 2000
    else if k >= 2 then 20
    else 0
  }

  /** The contribution of one line with the given mark counts: a line with
      both players' marks is dead and a line with none is blank, and both
      score 0; otherwise the owner's reward or penalty. */
  function LineScore(mine: nat, theirs: nat, n: int): (r: int)
    ensures mine > 0 && theirs > 0 ==> r == 0
    ensures mine == 0 && theirs == 0 ==> r == 0
    ensures mine > 0 && theirs == 0 ==> r == Reward(mine, n)
    ensures mine == 0 && theirs > 0 ==> r == -Penalty(theirs, n)
  {
    if mine > 0 && theirs > 0 then 0
    else (if mine > 0 then Reward(mine, n) else 0) - (if theirs > 0 then Penalty(theirs, n) else 0)
  }

  function LineValue(c: Config, s: seq<char>, line: seq<int>): int
    requires forall k :: 0 <= k < |line| ==> 0 <= line[k] < |s|
  {
    LineScore(Count(s, line, c.ai), Count(s, line, c.human), c.n)
  }

  /** The running total after the first k lines. */
  function EvaluatePrefix(c: Config, s: seq<char>, lines: seq<seq<int>>, k: nat): int
    requires Fits(lines, |s|) && k <= |lines|
  {
    if k == 0 then 0 else EvaluatePrefix(c, s, lines, k - 1) + LineValue(c, s, lines[k - 1])
  }

  /** The static score of a board: the sum of its line values. */
  function Evaluate(c: Config, s: seq<char>): int
    requires |s| == c.n * c.n
  {
    WinLinesFit(c.n);
    EvaluatePrefix(c, s, WinLines(c.n), |WinLines(c.n)|)
  }

  /** A line that is not complete is worth at most a near-win either way. */
  lemma IncompleteLineBounds(c: Config, s: seq<char>, line: seq<int>)
    requires c.ai != EMPTY && c.human != EMPTY
    requires forall k :: 0 <= k < |line| ==> 0 <= line[k] < |s|
    requires |line| == c.n && !Complete(s, line)
    ensures -55000 <= LineValue(c, s, line) <= 50000
  {
  }

  lemma {:induction false} EvaluatePrefixBounds(c: Config, s: seq<char>, lines: seq<seq<int>>, k: nat)
    requires c.ai != EMPTY && c.human != EMPTY
    requires Fits(lines, |s|) && k <= |lines|
    requires forall j :: 0 <= j < k ==> |lines[j]| == c.n && !Complete(s, lines[j])
    ensures -55000 * k <= EvaluatePrefix(c, s, lines, k) <= 50000 * k
  {
    if k > 0 {
      EvaluatePrefixBounds(c, s, lines, k - 1);
      IncompleteLineBounds(c, s, lines[k - 1]);
    }
  }

  /** On a board where no line is complete, the heuristic stays strictly
      between the loss and win scores, so any decided position outranks
      every heuristic one. */
  lemma EvaluateBounds(c: Config, s: seq<char>)
    requires ValidConfig(c) && |s| == c.n * c.n
    requires !BoardWinner(c.n, s).Win?
    ensures LOSS_SCORE < Evaluate(c, s) < WIN_SCORE
  {
    WinLinesFit(c.n);
    var lines := WinLines(c.n);
    WinnerSpec(s, lines);
    EvaluatePrefixBounds(c, s, lines, |lines|);
  }

  lemma {:induction false} DeadPrefixScoresZero(c: Config, s: seq<char>, lines: seq<seq<int>>, k: nat)
    requires Fits(lines, |s|) && k <= |lines|
    requires forall j :: 0 <= j < k ==> Count(s, lines[j], c.ai) > 0 && Count(s, lines[j], c.human) > 0
    ensures EvaluatePrefix(c, s, lines, k) == 0
  {
    if k > 0 {
      DeadPrefixScoresZero(c, s, lines, k - 1);
    }
  }

  /** Every line holds marks of both players. */
  predicate AllLinesDead(c: Config, s: seq<char>)
    requires |s| == c.n * c.n
  {
    WinLinesFit(c.n);
    forall j :: 0 <= j < |WinLines(c.n)| ==>
      Count(s, WinLines(c.n)[j], c.ai) > 0 && Count(s, WinLines(c.n)[j], c.human) > 0
  }

  /** A board whose every line holds both players' marks scores 0. */
  lemma DeadBoardScoresZero(c: Config, s: seq<char>)
    requires |s| == c.n * c.n && AllLinesDead(c, s)
    ensures Evaluate(c, s) == 0
  {
    WinLinesFit(c.n);
    DeadPrefixScoresZero(c, s, WinLines(c.n), |WinLines(c.n)|);
  }

  /** The reward never falls as the engine adds marks to an open line. */
  lemma RewardMonotone(n: int, k: nat)
    requires ValidSize(n) && 1 <= k < n
    ensures Reward(k, n) <= Reward(k + 1, n)
  {
  }

  /** ...but it does not always rise: on a 6x6 board two and three marks
      score the same. */
  lemma RewardNotStrict()
    ensures Reward(2, 6) == Reward(3, 6) == 10
  {
  }
}

=== FILE: geometry.dfy ===
/** Win-line geometry of an n-by-n board.

    Cells are numbered row by row: the cell in row r and column c has index
    r * n + c.  A win line is a sequence of n cell indices: every row, every
    column, the main diagonal and the anti-diagonal, in that order. */
module Geometry {

  /** The board sizes the game accepts. */
  predicate ValidSize(n: int) {
    3 <= n <= 6
  }

  function Row(n: nat, r: int): seq<int> {
    seq(n, c => r * n + c)
  }

  function Column(n: nat, c: int): seq<int> {
    seq(n, r => r * n + c)
  }

  function Diagonal(n: nat): seq<int> {
    seq(n, i => i * n + i)
  }

  function AntiDiagonal(n: nat): seq<int> {
    seq(n, i => i * n + (n - 1 - i))
  }

  /** All rows, then all columns, then the two diagonals. */
  function WinLines(n: nat): seq<seq<int>> {
    seq(n, r => Row(n, r)) + seq(n, c => Column(n, c)) + [Diagonal(n), AntiDiagonal(n)]
  }

  /** Every index of every line lies in [0, size). */
  predicate Fits(lines: seq<seq<int>>, size: int) {
    forall j, k :: 0 <= j < |lines| && 0 <= k < |lines[j]| ==> 0 <= lines[j][k] < size
  }

  /** The index of a cell in row r and column c is on the board. */
  lemma CellInRange(n: nat, r: int, c: int)
    requires 0 <= r < n && 0 <= c < n
    ensures 0 <= r * n + c < n * n
  {
    assert 0 <= r * n;
    assert r * n + c < r * n + n == (r + 1) * n;
    assert (r + 1) * n <= n * n by {
      assert r + 1 <= n;
    }
  }

  /** d * n is at least n when d is positive. */
  lemma MulAtLeast(d: int, n: nat)
    requires d >= 1
    ensures d * n >= n
  {
    assert (d - 1) * n >= 0;
    assert d * n == (d - 1) * n + n;
  }

  /** Row r of the cell index r * n + c is its quotient by n, column c its
      remainder. */
  lemma Coordinates(n: nat, r: int, c: int)
    requires 0 <= r < n && 0 <= c < n
    ensures (r * n + c) / n == r && (r * n + c) % n == c
  {
    var i := r * n + c;
    var q, m := i / n, i % n;
    assert i == q * n + m;
    assert 0 <= m < n;
    assert (q - r) * n == c - m;
    if q > r {
      MulAtLeast(q - r, n);
      assert false;
    } else if q < r {
      MulAtLeast(r - q, n);
      assert false;
    }
  }

  /** The shape of the line table: 2n+2 lines of n in-range indices; line
      j < n is row j, line n + j is column j, then the main diagonal and the
      anti-diagonal. */
  lemma WinLinesShape(n: nat)
    ensures |WinLines(n)| == 2 * n + 2
    ensures forall j :: 0 <= j < 2 * n + 2 ==> |WinLines(n)[j]| == n
    ensures Fits(WinLines(n), n * n)
    ensures forall j :: 0 <= j < n ==> WinLines(n)[j] == Row(n, j)
    ensures forall j :: n <= j < 2 * n ==> WinLines(n)[j] == Column(n, j - n)
    ensures WinLines(n)[2 * n] == Diagonal(n) && WinLines(n)[2 * n + 1] == AntiDiagonal(n)
  {
    var lines := WinLines(n);
    forall j, k | 0 <= j < |lines| && 0 <= k < |lines[j]|
      ensures 0 <= lines[j][k] < n * n
    {
      if j < n {
        CellInRange(n, j, k);
      } else if j < 2 * n {
        CellInRange(n, k, j - n);
      } else if j == 2 * n {
        CellInRange(n, k, k);
      } else {
        CellInRange(n, k, n - 1 - k);
      }
    }
  }

  /** The part of WinLinesShape that the users of the line table need: 2n+2
      lines of n indices, all on the board. It states no new fact; it keeps
      the rows, columns and diagonals of WinLinesShape out of the proofs
      that only need the sizes and the range. */
  lemma WinLinesFit(n: nat)
    ensures |WinLines(n)| == 2 * n + 2
    ensures forall j :: 0 <= j < 2 * n + 2 ==> |WinLines(n)[j]| == n
    ensures Fits(WinLines(n), n * n)
  {
    WinLinesShape(n);
  }

  /** Every cell lies on its own row (at its column position) and on its
      own column (at its row position). */
  lemma CellOnRowAndColumn(n: nat, i: int)
    requires 0 < n && 0 <= i < n * n
    ensures 0 <= i / n < n && 0 <= i % n < n
    ensures Row(n, i / n)[i % n] == i
    ensures Column(n, i % n)[i / n] == i
  {
    var r, c := i / n, i % n;
    assert i == r * n + c;
  }

  /** Each row keeps its row coordinate and runs through every column; each
      column the other way round; the diagonals pair row k with column k and
      with column n-1-k. */
  lemma LineCoordinates(n: nat, line: int, k: int)
    requires 0 <= line < n && 0 <= k < n
    ensures Row(n, line)[k] / n == line && Row(n, line)[k] % n == k
    ensures Column(n, line)[k] / n == k && Column(n, line)[k] % n == line
    ensures Diagonal(n)[k] / n == k && Diagonal(n)[k] % n == k
    ensures AntiDiagonal(n)[k] / n == k && AntiDiagonal(n)[k] % n == n - 1 - k
  {
    Coordinates(n, line, k);
    Coordinates(n, k, line);
    Coordinates(n, k, k);
    Coordinates(n, k, n - 1 - k);
  }
}

=== FILE: grid.dfy ===
/** The grid state: a mutable board of n*n cells, its fixed win lines, the
    empty-cell queries and the terminal-state detector. */
module Grid {
  import opened Geometry

  /** The symbol of a free cell. */
  const EMPTY: char := ' '

  datatype Result<T> = Ok(value: T) | Err(message: string)

  // ---------------------------------------------------------------------
  // Empty cells

  /** The indices below k that hold EMPTY, in ascending order. */
  function EmptyIndicesBelow(s: seq<char>, k: nat): seq<int>
    requires k <= |s|
  {
    if k == 0 then [] else EmptyIndicesBelow(s, k - 1) + (if s[k - 1] == EMPTY then [k - 1] else [])
  }

  /** The indices of all EMPTY cells, in ascending order. */
  function EmptyIndices(s: seq<char>): seq<int> {
    EmptyIndicesBelow(s, |s|)
  }

  /** The number of EMPTY cells. */
  function CountEmpty(s: seq<char>): nat {
    multiset(s)[EMPTY]
  }

  predicate StrictlyAscending(xs: seq<int>) {
    forall a, b :: 0 <= a < b < |xs| ==> xs[a] < xs[b]
  }

  lemma {:induction false} EmptyIndicesBelowSpec(s: seq<char>, k: nat)
    requires k <= |s|
    ensures StrictlyAscending(EmptyIndicesBelow(s, k))
    ensures forall i :: i in EmptyIndicesBelow(s, k) <==> 0 <= i < k && s[i] == EMPTY
  {
    if k > 0 {
      EmptyIndicesBelowSpec(s, k - 1);
      var prev := EmptyIndicesBelow(s, k - 1);
      var tail: seq<int> := if s[k - 1] == EMPTY then [k - 1] else [];
      assert EmptyIndicesBelow(s, k) == prev + tail;
      forall a, b | 0 <= a < b < |prev + tail|
        ensures (prev + tail)[a] < (prev + tail)[b]
      {
        if b >= |prev| {
          assert prev[a] in prev;
        }
      }
    }
  }

  /** The empty-cell list holds exactly the EMPTY indices, strictly ascending. */
  lemma EmptyIndicesSpec(s: seq<char>)
    ensures StrictlyAscending(EmptyIndices(s))
    ensures forall i :: i in EmptyIndices(s) <==> 0 <= i < |s| && s[i] == EMPTY
    ensures EmptyIndices(s) == [] <==> EMPTY !in s
  {
    EmptyIndicesBelowSpec(s, |s|);
    if EMPTY in s {
      var i :| 0 <= i < |s| && s[i] == EMPTY;
      assert i in EmptyIndices(s);
    }
    if EmptyIndices(s) != [] {
      assert EmptyIndices(s)[0] in EmptyIndices(s);
    }
  }

  /** Placing a symbol on an empty cell and putting EMPTY back restores the
      board; while the symbol is there, that cell and only that cell has
      left the empty-cell list. */
  lemma PlaceAndUndo(s: seq<char>, i: int, symbol: char)
    requires 0 <= i < |s| && s[i] == EMPTY && symbol != EMPTY
    ensures s[i := symbol][i := EMPTY] == s
    ensures CountEmpty(s[i := symbol]) == CountEmpty(s) - 1
    ensures forall j :: j in EmptyIndices(s[i := symbol]) <==> j in EmptyIndices(s) && j != i
  {
    EmptyIndicesSpec(s);
    EmptyIndicesSpec(s[i := symbol]);
  }

  /** There are at most as many EMPTY cells as cells. */
  lemma {:induction false} CountEmptyAtMostSize(s: seq<char>)
    ensures CountEmpty(s) <= |s|
  {
    if s != [] {
      var t := s[..|s| - 1];
      assert s == t + [s[|s| - 1]];
      assert multiset(s) == multiset(t) + multiset{s[|s| - 1]};
      CountEmptyAtMostSize(t);
    }
  }

  // ---------------------------------------------------------------------
  // Terminal-state detection

  datatype Outcome = Win(symbol: char) | Draw | Undecided

  /** A line filled with one non-empty symbol. */
  predicate Complete(s: seq<char>, line: seq<int>)
    requires forall k :: 0 <= k < |line| ==> 0 <= line[k] < |s|
  {
    |line| > 0 && s[line[0]] != EMPTY && forall k :: 0 <= k < |line| ==> s[line[k]] == s[line[0]]
  }

  /** The outcome decided by lines j.. (the earlier lines being incomplete). */
  function WinnerFrom(s: seq<char>, lines: seq<seq<int>>, j: nat): Outcome
    requires Fits(lines, |s|) && j <= |lines|
    decreases |lines| - j
  {
    if j == |lines| then (if EMPTY in s then Undecided else Draw)
    else if Complete(s, lines[j]) then Win(s[lines[j][0]])
    else WinnerFrom(s, lines, j + 1)
  }

  /** The outcome of a board: the symbol of the first complete line, else a
      draw when no cell is EMPTY, else undecided. */
  function Winner(s: seq<char>, lines: seq<seq<int>>): Outcome
    requires Fits(lines, |s|)
  {
    WinnerFrom(s, lines, 0)
  }

  lemma {:induction false} WinnerFromSpec(s: seq<char>, lines: seq<seq<int>>, j: nat)
    requires Fits(lines, |s|) && j <= |lines|
    ensures var w := WinnerFrom(s, lines, j);
      && (w.Win? ==> exists t :: j <= t < |lines| && Complete(s, lines[t])
                       && w.symbol == s[lines[t][0]]
                       && forall u :: j <= u < t ==> !Complete(s, lines[u]))
      && (!w.Win? ==> forall t :: j <= t < |lines| ==> !Complete(s, lines[t]))
      && (!w.Win? ==> (w == Draw <==> EMPTY !in s))
    decreases |lines| - j
  {
    if j < |lines| && !Complete(s, lines[j]) {
      WinnerFromSpec(s, lines, j + 1);
    }
  }

  /** A complete line outranks fullness: the outcome is a win exactly when
      some line is complete, and then it names the symbol of the first
      complete line; otherwise it is a draw exactly when the board is full. */
  lemma WinnerSpec(s: seq<char>, lines: seq<seq<int>>)
    requires Fits(lines, |s|)
    ensures Winner(s, lines).Win? <==> exists t :: 0 <= t < |lines| && Complete(s, lines[t])
    ensures Winner(s, lines).Win? ==>
              exists t :: 0 <= t < |lines| && Complete(s, lines[t])
                && Winner(s, lines).symbol == s[lines[t][0]]
                && forall u :: 0 <= u < t ==> !Complete(s, lines[u])
    ensures Winner(s, lines).Win? ==> Winner(s, lines).symbol != EMPTY
    ensures Winner(s, lines) == Draw <==> (forall t :: 0 <= t < |lines| ==> !Complete(s, lines[t])) && EMPTY !in s
    ensures Winner(s, lines) == Undecided <==> (forall t :: 0 <= t < |lines| ==> !Complete(s, lines[t])) && EMPTY in s
  {
    WinnerFromSpec(s, lines, 0);
  }

  /** The outcome of an n-by-n board under the standard line table. */
  function BoardWinner(n: nat, s: seq<char>): Outcome
    requires |s| == n * n
  {
    WinLinesFit(n);
    Winner(s, WinLines(n))
  }

  /** The C++ source reports an outcome as a char: the winning symbol, 'D'
      for a draw and '\0' for no winner. */
  function CppCode(o: Outcome): char {
    match o
    case Win(c) => c
    case Draw => 'D'
    case Undecided => '\0'
  }

  /** The Python source reports the winning symbol, 'DRAW' or None. */
  datatype PyValue = PyStr(text: string) | PyNone

  function PyCode(o: Outcome): PyValue {
    match o
    case Win(c) => PyStr([c])
    case Draw => PyStr("DRAW")
    case Undecided => PyNone
  }

  /** A player symbol that the C++ encoding can tell apart from its draw
      and no-winner markers. */
  predicate CppDistinct(c: char) {
    c != 'D' && c != '\0'
  }

  /** Both encodings lose nothing: with player symbols other than 'D' and
      '\0', equal codes mean equal outcomes. */
  lemma CodesAreFaithful(o1: Outcome, o2: Outcome)
    requires o1.Win? ==> CppDistinct(o1.symbol)
    requires o2.Win? ==> CppDistinct(o2.symbol)
    ensures CppCode(o1) == CppCode(o2) ==> o1 == o2
    ensures PyCode(o1) == PyCode(o2) ==> o1 == o2
  {
    if PyCode(o1) == PyCode(o2) && o1.Win? && o2.Win? {
      assert [o1.symbol][0] == [o2.symbol][0];
    }
  }

  // ---------------------------------------------------------------------
  // The board

  class Board {
    const size: int
    const cells: array<char>
    const winLines: seq<seq<int>>

    /** The size is accepted, there are size*size cells, and the lines are
        the fixed table for this size (2n+2 lines of n cells on the board). */
    ghost predicate Valid() {
      && ValidSize(size)
      && cells.Length == size * size
      && winLines == WinLines(size)
      && |winLines| == 2 * size + 2
      && (forall j :: 0 <= j < |winLines| ==> |winLines[j]| == size)
      && Fits(winLines, cells.Length)
    }

    /** A board of size n with every cell EMPTY; NewBoard is the checked
        entry point. */
    constructor (n: int)
      requires ValidSize(n)
      ensures Valid() && size == n && fresh(cells)
      ensures forall k :: 0 <= k < cells.Length ==> cells[k] == EMPTY
    {
      size := n;
      cells := new char[n * n](_ => EMPTY);
      var lines := GenerateWinLines(n);
      winLines := lines;
      WinLinesFit(n);
    }

    /** Builds the rows, the columns and the two diagonals one index at a
        time. */
    static method GenerateWinLines(n: nat) returns (lines: seq<seq<int>>)
      ensures lines == WinLines(n)
    {
      ghost var all := WinLines(n);
      assert |all| == 2 * n + 2;
      lines := [];
      // Rows
      var r := 0;
      while r < n
        invariant 0 <= r <= n
        invariant lines == all[..r]
      {
        var line := [];
        var c := 0;
        while c < n
          invariant 0 <= c <= n
          invariant line == Row(n, r)[..c]
        {
          assert Row(n, r)[..c + 1] == Row(n, r)[..c] + [r * n + c];
          line := line + [r * n + c];
          c := c + 1;
        }
        assert all[r] == Row(n, r) && line == Row(n, r);
        assert all[..r + 1] == all[..r] + [Row(n, r)];
        lines := lines + [line];
        r := r + 1;
      }
      // Columns
      var c := 0;
      while c < n
        invariant 0 <= c <= n
        invariant lines == all[..n + c]
      {
        var line := [];
        var r := 0;
        while r < n
          invariant 0 <= r <= n
          invariant line == Column(n, c)[..r]
        {
          assert Column(n, c)[..r + 1] == Column(n, c)[..r] + [r * n + c];
          line := line + [r * n + c];
          r := r + 1;
        }
        assert all[n + c] == Column(n, c) && line == Column(n, c);
        assert all[..n + c + 1] == all[..n + c] + [Column(n, c)];
        lines := lines + [line];
        c := c + 1;
      }
      // Diagonals
      var diag1, diag2 := [], [];
      var i := 0;
      while i < n
        invariant 0 <= i <= n
        invariant diag1 == Diagonal(n)[..i] && diag2 == AntiDiagonal(n)[..i]
      {
        assert Diagonal(n)[..i + 1] == Diagonal(n)[..i] + [i * n + i];
        assert AntiDiagonal(n)[..i + 1] == AntiDiagonal(n)[..i] + [i * n + (n - 1 - i)];
        diag1 := diag1 + [i * n + i];
        diag2 := diag2 + [i * n + (n - 1 - i)];
        i := i + 1;
      }
      assert diag1 == Diagonal(n) && diag2 == AntiDiagonal(n);
      assert all == all[..2 * n] + [Diagonal(n), AntiDiagonal(n)];
      lines := lines + [diag1] + [diag2];
    }

    function Get(i: int): char
      reads cells
      requires 0 <= i < cells.Length
    {
      cells[i]
    }

    method Set(i: int, symbol: char)
      requires 0 <= i < cells.Length
      modifies cells
      ensures cells[..] == old(cells[..])[i := symbol]
    {
      cells[i] := symbol;
    }

    function IsEmpty(i: int): (r: bool)
      reads cells
      requires 0 <= i < cells.Length
      ensures r <==> i in EmptyIndices(cells[..])
    {
      EmptyIndicesSpec(cells[..]);
      cells[i] == EMPTY
    }

    method IsFull() returns (full: bool)
      ensures full <==> EMPTY !in cells[..]
      ensures full <==> EmptyIndices(cells[..]) == []
    {
      EmptyIndicesSpec(cells[..]);
      var k := 0;
      while k < cells.Length
        invariant 0 <= k <= cells.Length
        invariant forall t :: 0 <= t < k ==> cells[t] != EMPTY
      {
        if cells[k] == EMPTY {
          return false;
        }
        k := k + 1;
      }
      return true;
    }

    method GetEmptyCells() returns (empty: seq<int>)
      ensures empty == EmptyIndices(cells[..])
      ensures StrictlyAscending(empty)
      ensures forall i :: i in empty <==> 0 <= i < cells.Length && cells[i] == EMPTY
    {
      empty := [];
      var i := 0;
      while i < cells.Length
        invariant 0 <= i <= cells.Length
        invariant empty == EmptyIndicesBelow(cells[..], i)
      {
        if cells[i] == EMPTY {
          empty := empty + [i];
        }
        i := i + 1;
      }
      EmptyIndicesSpec(cells[..]);
    }

    /** Scans the lines in order for one filled with a single non-empty
        symbol, then checks for a full board. */
    method CheckWinner() returns (w: Outcome)
      requires Valid()
      ensures w == Winner(cells[..], winLines)
    {
      ghost var s := cells[..];
      var j := 0;
      while j < |winLines|
        invariant 0 <= j <= |winLines|
        invariant WinnerFrom(s, winLines, j) == Winner(s, winLines)
      {
        var line := winLines[j];
        assert |line| == size;
        var first := cells[line[0]];
        if first != EMPTY {
          var allSame := true;
          var k := 0;
          while k < |line|
            invariant 0 <= k <= |line|
            invariant allSame
            invariant forall t :: 0 <= t < k ==> s[line[t]] == first
          {
            if cells[line[k]] != first {
              allSame := false;
              assert !Complete(s, line) by {
                assert s[line[k]] != s[line[0]];
              }
              break;
            }
            k := k + 1;
          }
          if allSame {
            assert Complete(s, line);
            return Win(first);
          }
        }
        j := j + 1;
      }
      var full := IsFull();
      if full {
        return Draw;
      }
      return Undecided;
    }

    method Copy() returns (b: Board)
      requires Valid()
      ensures fresh(b) && fresh(b.cells) && b.Valid()
      ensures b.size == size && b.winLines == winLines && b.cells[..] == cells[..]
    {
      b := new Board(size);
      forall k | 0 <= k < cells.Length {
        b.cells[k] := cells[k];
      }
    }
  }

  /** Constructs an empty board, or fails for a size outside 3..6. */
  method NewBoard(size: int) returns (r: Result<Board>)
    ensures r.Err? <==> !ValidSize(size)
    ensures r.Ok? ==> fresh(r.value) && fresh(r.value.cells) && r.value.Valid() && r.value.size == size
    ensures r.Ok? ==> forall k :: 0 <= k < r.value.cells.Length ==> r.value.cells[k] == EMPTY
  {
    if size < 3 || size > 6 {
      return Err("Board size must be between 3 and 6");
    }
    var b := new Board(size);
    return Ok(b);
  }
}

=== FILE: search.dfy ===
/** The search engine as functions: depth-bounded minimax with alpha-beta
    pruning exactly as the engine runs it, plain minimax as its reference,
    the best-move selection, and the per-size depth tables. */
module Search {
  import opened Geometry
  import opened Grid
  import opened Evaluation

  /** The window sentinels and the starting running best: the limits of a
      32-bit int in the C++ engine (the Python engine uses float
      infinities, which no score reaches either). */
  const NEG_INF: int := -2147483648
  const POS_INF: int := 2147483647

  /** Remaining plies; Unbounded stands for Python's float('inf'). */
  datatype Depth = Plies(left: nat) | Unbounded

  function Next(d: Depth): Depth
    requires d != Plies(0)
  {
    match d
    case Plies(k) => Plies(k - 1)
    case Unbounded => Unbounded
  }

  /** The symbol placed on this turn. */
  function Mover(c: Config, isMax: bool): char {
    if isMax then c.ai else c.human
  }

  function Max(a: int, b: int): int { if a < b then b else a }

  function Min(a: int, b: int): int { if b < a then b else a }

  function Clamp(x: int, lo: int, hi: int): int { Min(Max(x, lo), hi) }

  /** Moves listed for a board: indices of EMPTY cells. */
  predicate AreMoves(s: seq<char>, es: seq<int>) {
    forall a :: 0 <= a < |es| ==> 0 <= es[a] < |s| && s[es[a]] == EMPTY
  }

  lemma EmptyIndicesAreMoves(s: seq<char>)
    ensures AreMoves(s, EmptyIndices(s))
  {
    EmptyIndicesSpec(s);
    forall a | 0 <= a < |EmptyIndices(s)|
      ensures 0 <= EmptyIndices(s)[a] < |s| && s[EmptyIndices(s)[a]] == EMPTY
    {
      assert EmptyIndices(s)[a] in EmptyIndices(s);
    }
  }

  // ---------------------------------------------------------------------
  // Plain minimax, the reference

  /** The minimax value of a board: exact on decided boards, the static
      evaluation when the depth runs out, otherwise the best child value
      for the side to move. */
  function Value(c: Config, s: seq<char>, d: Depth, isMax: bool): int
    requires ValidConfig(c) && |s| == c.n * c.n
    decreases CountEmpty(s), 1, 0
  {
    var w := BoardWinner(c.n, s);
    if w == Win(c.ai) then WIN_SCORE
    else if w == Win(c.human) then LOSS_SCORE
    else if w == Draw then 0
    else if d == Plies(0) then Evaluate(c, s)
    else
      EmptyIndicesAreMoves(s);
      Best(c, s, EmptyIndices(s), d, isMax)
  }

  /** The best child value over the moves es, with every child searched. */
  function Best(c: Config, s: seq<char>, es: seq<int>, d: Depth, isMax: bool): int
    requires ValidConfig(c) && |s| == c.n * c.n && d != Plies(0) && AreMoves(s, es)
    decreases CountEmpty(s), 0, |es|
  {
    if es == [] then (if isMax then NEG_INF else POS_INF)
    else
      PlaceAndUndo(s, es[0], Mover(c, isMax));
      var v := Value(c, s[es[0] := Mover(c, isMax)], Next(d), !isMax);
      var rest := Best(c, s, es[1..], d, isMax);
      if isMax then Max(v, rest) else Min(v, rest)
  }

  // ---------------------------------------------------------------------
  // Alpha-beta, as the engine computes it

  /** The score minimax returns: the terminal checks first, then the depth
      cut-off, then the pruned scan of the empty cells in ascending order. */
  function AlphaBeta(c: Config, s: seq<char>, d: Depth, alpha: int, beta: int, isMax: bool): int
    requires ValidConfig(c) && |s| == c.n * c.n
    decreases CountEmpty(s), 1, 0
  {
    var w := BoardWinner(c.n, s);
    if w == Win(c.ai) then WIN_SCORE
    else if w == Win(c.human) then LOSS_SCORE
    else if w == Draw then 0
    else if d == Plies(0) then Evaluate(c, s)
    else
      EmptyIndicesAreMoves(s);
      AlphaBetaLoop(c, s, EmptyIndices(s), d, alpha, beta, isMax, if isMax then NEG_INF else POS_INF)
  }

  /** The rest of the scan: es are the moves still to try, alpha and beta
      the current window and best the running maximum (or minimum). */
  function AlphaBetaLoop(c: Config, s: seq<char>, es: seq<int>, d: Depth,
                         alpha: int, beta: int, isMax: bool, best: int): int
    requires ValidConfig(c) && |s| == c.n * c.n && d != Plies(0) && AreMoves(s, es)
    decreases CountEmpty(s), 0, |es|
  {
    if es == [] then best
    else
      PlaceAndUndo(s, es[0], Mover(c, isMax));
      var v := AlphaBeta(c, s[es[0] := Mover(c, isMax)], Next(d), alpha, beta, !isMax);
      if isMax then
        var best', alpha' := Max(best, v), Max(alpha, v);
        if beta <= alpha' then best'
        else AlphaBetaLoop(c, s, es[1..], d, alpha', beta, isMax, best')
      else
        var best', beta' := Min(best, v), Min(beta, v);
        if beta' <= alpha then best'
        else AlphaBetaLoop(c, s, es[1..], d, alpha, beta', isMax, best')
  }

  /** The engines test the winner by its encoded value (a char in C++, a
      string or None in Python); with valid symbols those tests agree with
      the outcome tests AlphaBeta makes. */
  lemma EncodedTestsAgree(c: Config, o: Outcome)
    requires ValidConfig(c)
    requires o.Win? ==> CppDistinct(o.symbol)
    ensures CppCode(o) == c.ai <==> o == Win(c.ai)
    ensures CppCode(o) == c.human <==> o == Win(c.human)
    ensures CppCode(o) == 'D' <==> o == Draw
    ensures PyCode(o) == PyStr([c.ai]) <==> o == Win(c.ai)
    ensures PyCode(o) == PyStr([c.human]) <==> o == Win(c.human)
    ensures PyCode(o) == PyStr("DRAW") <==> o == Draw
  {
    CodesAreFaithful(o, Win(c.ai));
    CodesAreFaithful(o, Win(c.human));
    CodesAreFaithful(o, Draw);
  }

  /** The winner is tested before the depth: a decided board scores
      exactly WIN_SCORE, LOSS_SCORE or 0 at every depth and in every window,
      while an undecided board at depth 0 scores strictly between the two,
      so no heuristic score ties with a decided one. */
  lemma TerminalScores(c: Config, s: seq<char>, d: Depth, alpha: int, beta: int, isMax: bool)
    requires ValidConfig(c) && |s| == c.n * c.n
    ensures BoardWinner(c.n, s) == Win(c.ai) ==>
              AlphaBeta(c, s, d, alpha, beta, isMax) == Value(c, s, d, isMax) == WIN_SCORE
    ensures BoardWinner(c.n, s) == Win(c.human) ==>
              AlphaBeta(c, s, d, alpha, beta, isMax) == Value(c, s, d, isMax) == LOSS_SCORE
    ensures BoardWinner(c.n, s) == Draw ==>
              AlphaBeta(c, s, d, alpha, beta, isMax) == Value(c, s, d, isMax) == 0
    ensures BoardWinner(c.n, s) == Undecided && d == Plies(0) ==>
              LOSS_SCORE < AlphaBeta(c, s, d, alpha, beta, isMax) == Evaluate(c, s) < WIN_SCORE
  {
    if BoardWinner(c.n, s) == Undecided {
      EvaluateBounds(c, s);
    }
  }

  // ---------------------------------------------------------------------
  // Alpha-beta computes minimax

  /** One step of the maximizing scan keeps the clamped value: the arithmetic
      behind LoopMaxClamp. */
  lemma MaxStep(alpha0: int, beta: int, alpha: int, best: int, v: int, vt: int, rest: int)
    requires alpha0 < beta && alpha == Max(alpha0, best) && alpha < beta
    requires Clamp(v, alpha, beta) == Clamp(vt, alpha, beta)
    ensures beta <= Max(alpha, v) ==>
              Clamp(Max(best, v), alpha0, beta) == Clamp(Max(best, Max(vt, rest)), alpha0, beta)
    ensures Clamp(Max(Max(best, v), rest), alpha0, beta) == Clamp(Max(best, Max(vt, rest)), alpha0, beta)
  {
  }

  /** The minimizing mirror image of MaxStep. */
  lemma MinStep(alpha: int, beta0: int, beta: int, best: int, v: int, vt: int, rest: int)
    requires alpha < beta0 && beta == Min(beta0, best) && alpha < beta
    requires Clamp(v, alpha, beta) == Clamp(vt, alpha, beta)
    ensures Min(beta, v) <= alpha ==>
              Clamp(Min(best, v), alpha, beta0) == Clamp(Min(best, Min(vt, rest)), alpha, beta0)
    ensures Clamp(Min(Min(best, v), rest), alpha, beta0) == Clamp(Min(best, Min(vt, rest)), alpha, beta0)
  {
  }

  /** The fail-soft alpha-beta theorem: within the window (alpha, beta) the
      pruned score and the minimax value agree once both are clamped to the
      window. A value inside the window is returned exactly; a value at or
      below alpha (at or above beta) yields a score at or below alpha (at
      or above beta). */
  lemma {:induction false} AlphaBetaClamp(c: Config, s: seq<char>, d: Depth, alpha: int, beta: int, isMax: bool)
    requires ValidConfig(c) && |s| == c.n * c.n
    requires NEG_INF <= alpha < beta <= POS_INF
    ensures Clamp(AlphaBeta(c, s, d, alpha, beta, isMax), alpha, beta)
         == Clamp(Value(c, s, d, isMax), alpha, beta)
    decreases CountEmpty(s), 1, 0
  {
    var w := BoardWinner(c.n, s);
    if w != Win(c.ai) && w != Win(c.human) && w != Draw && d != Plies(0) {
      EmptyIndicesAreMoves(s);
      if isMax {
        LoopMaxClamp(c, s, EmptyIndices(s), d, alpha, alpha, beta, NEG_INF);
      } else {
        LoopMinClamp(c, s, EmptyIndices(s), d, alpha, beta, beta, POS_INF);
      }
    }
  }

  lemma {:induction false} LoopMaxClamp(c: Config, s: seq<char>, es: seq<int>, d: Depth,
                                        alpha0: int, alpha: int, beta: int, best: int)
    requires ValidConfig(c) && |s| == c.n * c.n && d != Plies(0) && AreMoves(s, es)
    requires NEG_INF <= alpha0 < beta <= POS_INF
    requires alpha == Max(alpha0, best) && alpha < beta
    ensures Clamp(AlphaBetaLoop(c, s, es, d, alpha, beta, true, best), alpha0, beta)
         == Clamp(Max(best, Best(c, s, es, d, true)), alpha0, beta)
    decreases CountEmpty(s), 0, |es|
  {
    if es != [] {
      PlaceAndUndo(s, es[0], c.ai);
      var child := s[es[0] := c.ai];
      var v := AlphaBeta(c, child, Next(d), alpha, beta, false);
      var vt := Value(c, child, Next(d), false);
      AlphaBetaClamp(c, child, Next(d), alpha, beta, false);
      var rest := Best(c, s, es[1..], d, true);
      MaxStep(alpha0, beta, alpha, best, v, vt, rest);
      if Max(alpha, v) < beta {
        LoopMaxClamp(c, s, es[1..], d, alpha0, Max(alpha, v), beta, Max(best, v));
      }
    }
  }

  lemma {:induction false} LoopMinClamp(c: Config, s: seq<char>, es: seq<int>, d: Depth,
                                        alpha: int, beta0: int, beta: int, best: int)
    requires ValidConfig(c) && |s| == c.n * c.n && d != Plies(0) && AreMoves(s, es)
    requires NEG_INF <= alpha < beta0 <= POS_INF
    requires beta == Min(beta0, best) && alpha < beta
    ensures Clamp(AlphaBetaLoop(c, s, es, d, alpha, beta, false, best), alpha, beta0)
         == Clamp(Min(best, Best(c, s, es, d, false)), alpha, beta0)
    decreases CountEmpty(s), 0, |es|
  {
    if es != [] {
      PlaceAndUndo(s, es[0], c.human);
      var child := s[es[0] := c.human];
      var v := AlphaBeta(c, child, Next(d), alpha, beta, true);
      var vt := Value(c, child, Next(d), true);
      AlphaBetaClamp(c, child, Next(d), alpha, beta, true);
      var rest := Best(c, s, es[1..], d, false);
      MinStep(alpha, beta0, beta, best, v, vt, rest);
      if alpha < Min(beta, v) {
        LoopMinClamp(c, s, es[1..], d, alpha, beta0, Min(beta, v), Min(best, v));
      }
    }
  }

  /** On a board holding only the two players' symbols a decided board is
      won by one of them. */
  lemma WinnerIsPlayer(c: Config, s: seq<char>)
    requires ValidConfig(c) && |s| == c.n * c.n && OnlyPlayers(c, s)
    requires BoardWinner(c.n, s).Win?
    ensures BoardWinner(c.n, s) == Win(c.ai) || BoardWinner(c.n, s) == Win(c.human)
  {
    WinLinesFit(c.n);
    var lines := WinLines(c.n);
    WinnerSpec(s, lines);
    var t :| 0 <= t < |lines| && Complete(s, lines[t]) && BoardWinner(c.n, s).symbol == s[lines[t][0]];
    assert 0 <= lines[t][0] < |s|;
  }

  /** Placing a player's symbol on an empty cell keeps the board to the two
      players' symbols. */
  lemma PlaceKeepsPlayers(c: Config, s: seq<char>, i: int, isMax: bool)
    requires OnlyPlayers(c, s) && 0 <= i < |s|
    ensures OnlyPlayers(c, s[i := Mover(c, isMax)])
  {
  }

  /** Every minimax value lies in [LOSS_SCORE, WIN_SCORE]. */
  lemma {:induction false} ValueBounds(c: Config, s: seq<char>, d: Depth, isMax: bool)
    requires ValidConfig(c) && |s| == c.n * c.n && OnlyPlayers(c, s)
    ensures LOSS_SCORE <= Value(c, s, d, isMax) <= WIN_SCORE
    decreases CountEmpty(s), 1, 0
  {
    var w := BoardWinner(c.n, s);
    if w.Win? {
      WinnerIsPlayer(c, s);
    } else if w != Draw {
      if d == Plies(0) {
        EvaluateBounds(c, s);
      } else {
        WinLinesFit(c.n);
        WinnerSpec(s, WinLines(c.n));
        EmptyIndicesSpec(s);
        EmptyIndicesAreMoves(s);
        BestBounds(c, s, EmptyIndices(s), d, isMax);
      }
    }
  }

  lemma {:induction false} BestBounds(c: Config, s: seq<char>, es: seq<int>, d: Depth, isMax: bool)
    requires ValidConfig(c) && |s| == c.n * c.n && d != Plies(0) && AreMoves(s, es)
    requires OnlyPlayers(c, s) && es != []
    ensures LOSS_SCORE <= Best(c, s, es, d, isMax) <= WIN_SCORE
    decreases CountEmpty(s), 0, |es|
  {
    PlaceAndUndo(s, es[0], Mover(c, isMax));
    PlaceKeepsPlayers(c, s, es[0], isMax);
    ValueBounds(c, s[es[0] := Mover(c, isMax)], Next(d), !isMax);
    if |es| > 1 {
      BestBounds(c, s, es[1..], d, isMax);
    }
  }

  /** Pruning changes nothing at the root: searched with the full window,
      alpha-beta returns the plain minimax value. */
  lemma AlphaBetaIsMinimax(c: Config, s: seq<char>, d: Depth, isMax: bool)
    requires ValidConfig(c) && |s| == c.n * c.n && OnlyPlayers(c, s)
    ensures AlphaBeta(c, s, d, NEG_INF, POS_INF, isMax) == Value(c, s, d, isMax)
    ensures LOSS_SCORE <= AlphaBeta(c, s, d, NEG_INF, POS_INF, isMax) <= WIN_SCORE
  {
    AlphaBetaClamp(c, s, d, NEG_INF, POS_INF, isMax);
    ValueBounds(c, s, d, isMax);
  }

  // ---------------------------------------------------------------------
  // Depth

  /** A depth at least the number of empty cells never cuts the search
      short: the value is the same as with no depth limit. */
  lemma {:induction false} DeepEnough(c: Config, s: seq<char>, k: nat, isMax: bool)
    requires ValidConfig(c) && |s| == c.n * c.n && OnlyPlayers(c, s)
    requires CountEmpty(s) <= k
    ensures Value(c, s, Plies(k), isMax) == Value(c, s, Unbounded, isMax)
    decreases CountEmpty(s), 1, 0
  {
    var w := BoardWinner(c.n, s);
    if w.Win? {
      WinnerIsPlayer(c, s);
    } else if w != Draw {
      WinLinesFit(c.n);
      WinnerSpec(s, WinLines(c.n));
      assert EMPTY in multiset(s);
      EmptyIndicesAreMoves(s);
      BestDeepEnough(c, s, EmptyIndices(s), k, isMax);
    }
  }

  lemma {:induction false} BestDeepEnough(c: Config, s: seq<char>, es: seq<int>, k: nat, isMax: bool)
    requires ValidConfig(c) && |s| == c.n * c.n && OnlyPlayers(c, s) && AreMoves(s, es)
    requires 1 <= k && CountEmpty(s) <= k
    ensures Best(c, s, es, Plies(k), isMax) == Best(c, s, es, Unbounded, isMax)
    decreases CountEmpty(s), 0, |es|
  {
    if es != [] {
      PlaceAndUndo(s, es[0], Mover(c, isMax));
      PlaceKeepsPlayers(c, s, es[0], isMax);
      DeepEnough(c, s[es[0] := Mover(c, isMax)], k - 1, !isMax);
      BestDeepEnough(c, s, es[1..], k, isMax);
    }
  }

  /** AIPlayer::getMaxDepth of the C++ engine: always a ply limit, deep
      enough on 3x3 to play the whole game out, at most 6 on larger boards. */
  function CppMaxDepth(size: int): (r: Depth)
    ensures r.Plies? && 4 <= r.left
    ensures size == 3 ==> r.left >= size * size
    ensures size != 3 ==> r.left <= 6
  {
    if size == 3 then Plies(100)
    else if size == 4 then Plies(6)
    else if size == 5 then Plies(5)
    else Plies(4)
  }

  /** The depth map of the Python AIPlayer, 4 for a size it does not list:
      unbounded exactly on 3x3, otherwise between 3 and 5 plies. */
  function PyMaxDepth(size: int): (r: Depth)
    ensures r == Unbounded <==> size == 3
    ensures r.Plies? ==> 3 <= r.left <= 5
  {
    if size == 3 then Unbounded
    else if size == 4 then Plies(5)
    else if size == 5 then Plies(4)
    else if size == 6 then Plies(3)
    else Plies(4)
  }

  /** Both tables limit the larger boards, shallower as the board grows, the
      Python table one ply below the C++ one; on 3x3 both search the whole
      game. */
  lemma DepthTables()
    ensures forall n :: 4 <= n <= 6 ==> CppMaxDepth(n).Plies? && PyMaxDepth(n).Plies?
    ensures forall n :: 4 <= n <= 6 ==> CppMaxDepth(n).left == PyMaxDepth(n).left + 1
    ensures forall n :: 4 <= n < 6 ==> CppMaxDepth(n + 1).left < CppMaxDepth(n).left
    ensures CppMaxDepth(3) == Plies(100) && PyMaxDepth(3) == Unbounded
  {
  }

  // ---------------------------------------------------------------------
  // Best move

  /** The score getBestMove gives move i: the engine's symbol placed there,
      then a full-window search with the opponent to move. */
  function MoveScore(c: Config, s: seq<char>, d: Depth, i: int): int
    requires ValidConfig(c) && |s| == c.n * c.n && 0 <= i < |s|
  {
    AlphaBeta(c, s[i := c.ai], d, NEG_INF, POS_INF, false)
  }

  /** The scores of the moves es, in order. */
  function Scores(c: Config, s: seq<char>, d: Depth, es: seq<int>): (r: seq<int>)
    requires ValidConfig(c) && |s| == c.n * c.n && AreMoves(s, es)
    ensures |r| == |es|
    ensures forall a :: 0 <= a < |es| ==> r[a] == MoveScore(c, s, d, es[a])
  {
    seq(|es|, a requires 0 <= a < |es| => MoveScore(c, s, d, es[a]))
  }

  /** The rest of getBestMove's scan over moves es with scores sc: a move
      replaces the best so far only with a strictly greater score. */
  function Pick(es: seq<int>, sc: seq<int>, bestScore: int, bestMove: int): int
    requires |sc| == |es|
  {
    if es == [] then bestMove
    else if sc[0] > bestScore then Pick(es[1..], sc[1..], sc[0], es[0])
    else Pick(es[1..], sc[1..], bestScore, bestMove)
  }

  /** The move getBestMove returns. */
  function BestMove(c: Config, s: seq<char>, d: Depth): int
    requires ValidConfig(c) && |s| == c.n * c.n
  {
    EmptyIndicesAreMoves(s);
    Pick(EmptyIndices(s), Scores(c, s, d, EmptyIndices(s)), NEG_INF, -1)
  }

  /** The scan keeps its initial choice when no move beats the initial
      score; otherwise it returns the first move whose score is strictly
      greater than every earlier one and not below any later one. */
  lemma {:induction false} PickSpec(es: seq<int>, sc: seq<int>, bs: int, bm: int)
    requires |sc| == |es|
    ensures var r := Pick(es, sc, bs, bm);
      || (r == bm && forall a :: 0 <= a < |es| ==> sc[a] <= bs)
      || (exists j :: 0 <= j < |es| && r == es[j] && sc[j] > bs
            && (forall a :: 0 <= a < j ==> sc[a] < sc[j])
            && (forall a :: j < a < |es| ==> sc[a] <= sc[j]))
  {
    if es != [] {
      var (bs', bm') := if sc[0] > bs then (sc[0], es[0]) else (bs, bm);
      var rest, restSc := es[1..], sc[1..];
      PickSpec(rest, restSc, bs', bm');
      var r := Pick(rest, restSc, bs', bm');
      assert r == Pick(es, sc, bs, bm);
      if r == bm' && forall a :: 0 <= a < |rest| ==> restSc[a] <= bs' {
        assert forall a :: 0 < a < |es| ==> sc[a] == restSc[a - 1];
        if sc[0] > bs {
          assert r == es[0];
        }
      } else {
        var j :| 0 <= j < |rest| && r == rest[j] && restSc[j] > bs'
            && (forall a :: 0 <= a < j ==> restSc[a] < restSc[j])
            && (forall a :: j < a < |rest| ==> restSc[a] <= restSc[j]);
        assert es[j + 1] == rest[j] && sc[j + 1] == restSc[j];
        assert forall a :: 0 < a < |es| ==> sc[a] == restSc[a - 1];
      }
    }
  }

  /** Index reasoning behind the first-best choice: the element at j of an
      ascending list, strictly above the scores before it and not below the
      scores after it, is a greatest score and beats every element listed
      at a smaller value. */
  lemma FirstMaximum(es: seq<int>, sc: seq<int>, j: int)
    requires |sc| == |es| && StrictlyAscending(es) && 0 <= j < |es|
    requires forall a :: 0 <= a < j ==> sc[a] < sc[j]
    requires forall a :: j < a < |es| ==> sc[a] <= sc[j]
    ensures forall a :: 0 <= a < |es| ==> sc[a] <= sc[j]
    ensures forall a :: 0 <= a < |es| && es[a] < es[j] ==> sc[a] < sc[j]
  {
  }

  /** When every empty cell scores above NEG_INF, the scan returns -1
      exactly on a full board, and otherwise an empty cell. */
  lemma {:induction false} NoMoveIffFull(c: Config, s: seq<char>, d: Depth)
    requires ValidConfig(c) && |s| == c.n * c.n
    requires forall i :: 0 <= i < |s| && s[i] == EMPTY ==> MoveScore(c, s, d, i) > NEG_INF
    ensures BestMove(c, s, d) == -1 <==> EMPTY !in s
    ensures BestMove(c, s, d) != -1 ==> BestMove(c, s, d) in EmptyIndices(s)
  {
    var es := EmptyIndices(s);
    EmptyIndicesSpec(s);
    EmptyIndicesAreMoves(s);
    var sc := Scores(c, s, d, es);
    PickSpec(es, sc, NEG_INF, -1);
    if es != [] {
      assert es[0] in es;
      assert sc[0] > NEG_INF;
      assert forall a :: 0 <= a < |es| ==> es[a] in es;
    }
  }

  /** Position j of the empty-cell list, first-best by score, read back on
      the board: its cell scores highest among the empty cells and every
      lower-numbered empty cell scores strictly less. */
  lemma FirstBestPosition(c: Config, s: seq<char>, d: Depth, j: int)
    requires ValidConfig(c) && |s| == c.n * c.n
    requires AreMoves(s, EmptyIndices(s)) && 0 <= j < |EmptyIndices(s)|
    requires var sc := Scores(c, s, d, EmptyIndices(s));
      && (forall a :: 0 <= a < j ==> sc[a] < sc[j])
      && (forall a :: j < a < |sc| ==> sc[a] <= sc[j])
    ensures var m := EmptyIndices(s)[j];
      && (forall i :: 0 <= i < |s| && s[i] == EMPTY ==> MoveScore(c, s, d, i) <= MoveScore(c, s, d, m))
      && (forall i :: 0 <= i < m && s[i] == EMPTY ==> MoveScore(c, s, d, i) < MoveScore(c, s, d, m))
  {
    var es := EmptyIndices(s);
    EmptyIndicesSpec(s);
    var sc := Scores(c, s, d, es);
    FirstMaximum(es, sc, j);
    forall i | 0 <= i < |s| && s[i] == EMPTY
      ensures MoveScore(c, s, d, i) <= sc[j]
      ensures i < es[j] ==> MoveScore(c, s, d, i) < sc[j]
    {
      assert i in es;
      var a :| 0 <= a < |es| && es[a] == i;
    }
  }

  /** When the scan returns a cell, that cell is empty, scores highest
      among the empty cells, and every lower-numbered empty cell scores
      strictly less. */
  lemma {:induction false} FirstBestEmptyCell(c: Config, s: seq<char>, d: Depth)
    requires ValidConfig(c) && |s| == c.n * c.n
    requires BestMove(c, s, d) != -1
    ensures var m := BestMove(c, s, d);
      && 0 <= m < |s| && s[m] == EMPTY
      && (forall i :: 0 <= i < |s| && s[i] == EMPTY ==> MoveScore(c, s, d, i) <= MoveScore(c, s, d, m))
      && (forall i :: 0 <= i < m && s[i] == EMPTY ==> MoveScore(c, s, d, i) < MoveScore(c, s, d, m))
  {
    var es := EmptyIndices(s);
    EmptyIndicesAreMoves(s);
    var sc := Scores(c, s, d, es);
    PickSpec(es, sc, NEG_INF, -1);
    var j :| 0 <= j < |es| && BestMove(c, s, d) == es[j]
        && (forall a :: 0 <= a < j ==> sc[a] < sc[j])
        && (forall a :: j < a < |es| ==> sc[a] <= sc[j]);
    FirstBestPosition(c, s, d, j);
  }

  /** What getBestMove promises, stated against plain minimax: -1 exactly
      when the board has no empty cell; otherwise an empty cell whose
      unpruned minimax value is the greatest over all empty cells, and the
      lowest-numbered such cell. */
  lemma BestMoveSpec(c: Config, s: seq<char>, d: Depth)
    requires ValidConfig(c) && |s| == c.n * c.n && OnlyPlayers(c, s)
    ensures BestMove(c, s, d) == -1 <==> EMPTY !in s
    ensures var m := BestMove(c, s, d);
      m != -1 ==>
        && 0 <= m < |s| && s[m] == EMPTY
        && (forall i :: 0 <= i < |s| && s[i] == EMPTY ==>
              Value(c, s[i := c.ai], d, false) <= Value(c, s[m := c.ai], d, false))
        && (forall i :: 0 <= i < m && s[i] == EMPTY ==>
              Value(c, s[i := c.ai], d, false) < Value(c, s[m := c.ai], d, false))
  {
    forall i | 0 <= i < |s| && s[i] == EMPTY
      ensures MoveScore(c, s, d, i) == Value(c, s[i := c.ai], d, false)
      ensures MoveScore(c, s, d, i) > NEG_INF
    {
      PlaceKeepsPlayers(c, s, i, true);
      AlphaBetaIsMinimax(c, s[i := c.ai], d, false);
    }
    NoMoveIffFull(c, s, d);
    if BestMove(c, s, d) != -1 {
      FirstBestEmptyCell(c, s, d);
    }
  }

  /** On a 3x3 board the C++ depth of 100 and Python's unbounded depth make
      the same choice: both search the whole game. */
  lemma ThreeByThreeTablesAgree(c: Config, s: seq<char>)
    requires ValidConfig(c) && c.n == 3 && |s| == 9 && OnlyPlayers(c, s)
    ensures BestMove(c, s, CppMaxDepth(3)) == BestMove(c, s, PyMaxDepth(3))
  {
    var es := EmptyIndices(s);
    EmptyIndicesAreMoves(s);
    forall a | 0 <= a < |es|
      ensures MoveScore(c, s, Plies(100), es[a]) == MoveScore(c, s, Unbounded, es[a])
    {
      var child := s[es[a] := c.ai];
      PlaceKeepsPlayers(c, s, es[a], true);
      CountEmptyAtMostSize(child);
      AlphaBetaIsMinimax(c, child, Plies(100), false);
      AlphaBetaIsMinimax(c, child, Unbounded, false);
      DeepEnough(c, child, 100, false);
    }
    assert Scores(c, s, Plies(100), es) == Scores(c, s, Unbounded, es);
  }
}
